=== FILE: README.md ===
# Huffman codec of `compression/hauffman_tree.cpp`, in Dafny

A model of the `HuffmanTree` codec with file I/O and threads stripped away.
The encoder counts the input's characters, merges the frequency queue into
a binary tree and gives each leaf its root-to-leaf path as a code. It then
writes a compressed file with four parts:

- a symbol-count byte;
- one 17-byte record per symbol: the symbol's byte, then a 128-bit field
  holding `127 - |code|` zeros, a sentinel `1` and the code;
- the codes of the input packed into bytes, with the last byte zero-padded;
- a pad-count byte.

The decoder reads the header back, grows a tree from the code paths
(`buildTree`), expands the payload and walks the tree bit by bit.

Modules follow the steps of the C++ code:

| module | file | what it holds |
|---|---|---|
| `Outcomes` | outcomes.dfy | `Option`, `Result` and the decoder's error kinds |
| `Bits` | bits.dfy | `decimalToBinary`, `binaryToDecimal`, 8-bit cutting |
| `CodeTable` | code_table.dfy | the symbol-to-code table, prefix-freeness, code concatenation |
| `HuffmanTree` | huffman_tree.dfy | frequency queue, the merge loop, `traverse` |
| `Header` | header.dfy | the sentinel code field and the header, written and parsed |
| `Rebuild` | rebuild.dfy | the decoder's nullable tree and `buildTree` |
| `Payload` | payload.dfy | the payload loop of `encodeSave` and its unpacking in `decodeSave` |
| `Decoder` | decoder.dfy | the decoding walk and `decode` on the bytes of a file |
| `Codec` | codec.dfy | `encode` on an in-memory input and the round trip |

The central result is `Codec.Compress`: for every input of characters below
128 with at least two distinct characters, and for every order in which the
queue may pop, the produced file decodes back to the input. The C++
`std::priority_queue<node_ptr>` orders nodes by pointer value. Its
`operator>` on frequencies is never used. So `HuffmanTree.BuildTree` picks
both popped nodes arbitrarily (`:|`), and every property is proved for all
pop orders. `encodeSave` writes the header from another copy of the queue,
so `Codec.Compress` lists the traversed entries in an arbitrary order too.

Where the C++ code has undefined behaviour or throws, the model returns an
error instead. This covers an empty file, a header cut short, a code field
with no sentinel `1`, a step to a missing child and a file with no pad-count
byte.

## Model

| member | source | states |
|---|---|---|
| Bits.DecimalToBinary | compression/hauffman_tree.cpp:93-105 | a byte becomes exactly 8 binary digits whose numeric value is the byte (so 0 becomes eight zeros) |
| Bits.BinaryToDecimal | compression/hauffman_tree.cpp:89-91 | `stoi(s, 0, 2)` on an 8-digit string gives the byte whose `decimalToBinary` is that string again |
| Bits.ValueInjective | compression/hauffman_tree.cpp:89-105 | two digit strings of equal width and equal value are equal, so `binaryToDecimal` and `decimalToBinary` are mutually inverse |
| Bits.Expand | compression/hauffman_tree.cpp:259-262 | the 16 field bytes (and, in the decoder, each payload byte) become 8 binary digits per byte, in order; `Bits.Chunk` is its inverse |
| Bits.Chunk | compression/hauffman_tree.cpp:210-217 | cutting a bit string of whole bytes into 8-digit pieces gives bytes whose expansion is the string again |
| Bits.ExpandAppend | compression/hauffman_tree.cpp:259-262 | expanding bytes to digits distributes over concatenation |
| CodeTable.CodeOf | compression/hauffman_tree.cpp:224 | the code appended for a symbol is the code of its table entry, or empty for a symbol without a leaf |
| CodeTable.CodeBits | compression/hauffman_tree.cpp:222-224 | the concatenated codes of the input are a bit string, with at least one bit per character when every character has a nonempty code |
| CodeTable.PermutedTable | compression/hauffman_tree.cpp:201-218 | the header's entries, taken in any pop order of the queue, still form a valid prefix-free table with the same symbols |
| CodeTable.CodeBitsAppend | compression/hauffman_tree.cpp:223-232 | appending one more symbol appends exactly its code to the bit stream |
| HuffmanTree.Count | compression/hauffman_tree.cpp:139-142 | a character's count is its number of occurrences in the input (one `freq++` per character read), so it is positive exactly when the character occurs and never exceeds the input length |
| HuffmanTree.FrequencyQueue | compression/hauffman_tree.cpp:139-164 | the queue holds at most 128 leaves with distinct characters and positive counts, and a character below 128 has its leaf exactly when it occurs in the input |
| HuffmanTree.QueueFrom | compression/hauffman_tree.cpp:145-162 | the queue holds one leaf per occurring character below 128, with its count as frequency, and no other node |
| HuffmanTree.FrequencyQueueSize | compression/hauffman_tree.cpp:145-162 | two different characters in the input put at least two nodes in the queue |
| HuffmanTree.MergeStep | compression/hauffman_tree.cpp:172-180 | one merge shrinks the queue by one, pushes a node whose frequency is the sum of its two children, and keeps the multiset of leaves, the total frequency and the sum property of every node |
| HuffmanTree.BuildTree | compression/hauffman_tree.cpp:168-182 | for any pop order the loop ends with one internal root whose leaves are exactly the queue's nodes, in which every node's frequency is its children's sum, and whose height is below the queue size |
| HuffmanTree.RootFrequency | compression/hauffman_tree.cpp:172-180 | the root's frequency is the total frequency of the queue, whatever the pop order |
| HuffmanTree.LeafTotal | compression/hauffman_tree.cpp:173-178 | when every node's frequency is its children's sum, a node's frequency is the total of its leaves' |
| HuffmanTree.TotalFreqPermutation | compression/hauffman_tree.cpp:169-181 | the total frequency of a queue does not depend on the order of its nodes |
| HuffmanTree.HeightBelowLeaves | compression/hauffman_tree.cpp:168-182 | a tree's height is below its number of leaves, so no code of an S-leaf tree is longer than S - 1 |
| HuffmanTree.Traverse | compression/hauffman_tree.cpp:80-87 | every leaf gets one entry, in leaf order; each code extends the starting code by at most the tree height, and by at least one bit below an internal node |
| HuffmanTree.TraverseFollowsPaths | compression/hauffman_tree.cpp:80-87 | the code given to each leaf is its path from the root, '0' for left and '1' for right |
| HuffmanTree.TraversePrefixFree | compression/hauffman_tree.cpp:80-87 | no code traverse assigns is a prefix of another |
| Codec.CodesValid | compression/hauffman_tree.cpp:205-209 | the traversed table has one entry per queue node, codes of 1 to 127 bits (so `127 - code.size()` is never negative) and is prefix-free |
| Codec.CodesCoverInput | compression/hauffman_tree.cpp:222-224 | every input character has a code |
| Codec.CodesFromInput | compression/hauffman_tree.cpp:200-204 | every symbol in the header occurs in the input |
| Header.SentinelString | compression/hauffman_tree.cpp:205-209 | the field string is 128 binary digits |
| Header.Field | compression/hauffman_tree.cpp:205-217 | a code is written as 16 bytes whose expansion is the zeros, the sentinel and the code |
| Header.LeadingZeros | compression/hauffman_tree.cpp:263-266 | the scan stops at the first digit that is not '0', or at the end |
| Header.ParseField | compression/hauffman_tree.cpp:258-267 | a parsed code is the part after the sentinel of the expanded field; a field without a sentinel is an error exactly when it is all zeros |
| Header.FieldRoundTrip | compression/hauffman_tree.cpp:259-267 | a written code field reads back as the code it was written for |
| Header.Record | compression/hauffman_tree.cpp:203-217 | a symbol's record is 17 bytes starting with the symbol, and it parses back to the same entry |
| Header.ParseRecord | compression/hauffman_tree.cpp:254-267 | a parsed entry takes its symbol from the first byte and has a code that fits the field; the only failure is a missing sentinel |
| Header.Entries | compression/hauffman_tree.cpp:202-219 | the records of a table take 17 bytes per entry |
| Header.Write | compression/hauffman_tree.cpp:200-219 | the header is `1 + 17 * S` bytes and starts with S cut to a byte, matching the decoder's seek to the payload |
| Header.ParseEntries | compression/hauffman_tree.cpp:253-269 | a successful parse of `count` entries yields `count` entries whose codes fit their field, and needs at least `17 * count` bytes |
| Header.EntriesRoundTrip | compression/hauffman_tree.cpp:253-269 | the records of a table read back as that table, whatever bytes follow them |
| Rebuild.Insert | compression/hauffman_tree.cpp:107-121 | after `buildTree(path, id)` the root is a node, and following the path reaches a node holding `id` with the children that node already had (a fresh node if it was missing) |
| Rebuild.InsertKeepsNodes | compression/hauffman_tree.cpp:107-121 | `buildTree` never removes a node: a path that reached a node still reaches one |
| Rebuild.InsertAll | compression/hauffman_tree.cpp:252-268 | inserting the header entries one after another keeps the root a node, and every code inserted reaches a node at the end, whatever the table |
| Rebuild.Recreate | compression/hauffman_tree.cpp:248-270 | the rebuilt tree has a fresh root node, and every bit-string code of the header reaches a node of it |
| Rebuild.InsertKeepsOthers | compression/hauffman_tree.cpp:107-121 | a path that neither extends nor is extended by the inserted one reaches the same subtree as before |
| Rebuild.InsertOnlyOnPath | compression/hauffman_tree.cpp:107-121 | inserting a path creates nodes only on the way to that path |
| Rebuild.FollowAppend | compression/hauffman_tree.cpp:304-308 | following two paths in turn is following their concatenation |
| Rebuild.RebuildLeaves | compression/hauffman_tree.cpp:248-269 | inserting a valid table into a fresh root gives a tree in which each code leads to a leaf holding its symbol, and every node lies on the way to some code |
| Payload.Keep | compression/hauffman_tree.cpp:285-303 | the digits kept of the last byte are `min(8, size_t(8 - count0))` with `count0` the byte read as a signed char: `8 - count0` for a count of at most 8, all 8 otherwise |
| Payload.Pad | compression/hauffman_tree.cpp:233-237 | the last buffered bits, then '0's up to exactly 8 digits |
| Payload.Unpack | compression/hauffman_tree.cpp:299-303 | the walked bits are 8 digits per payload byte, the last byte cut to the kept digits |
| Payload.PackPayload | compression/hauffman_tree.cpp:222-239 | the pad count is at most 8; unpacking the payload with it gives exactly the concatenated codes of the input; the last byte's final `count` digits are zeros, so the payload's bits are those codes followed by `count` zeros; the payload has `ceil(bits / 8)` bytes and `8 * bytes - bits` padding bits |
| Payload.Flush | compression/hauffman_tree.cpp:225-230 | bytes are cut off the buffer only while it holds more than 8 bits; the digits of the flushed bytes followed by the buffer are unchanged, and 1 to 8 bits stay |
| Payload.PadLast | compression/hauffman_tree.cpp:233-239 | padding the 0 to 8 remaining bits with zeros gives a last byte and a count that unpack to exactly those bits, and whose final `count` digits are zeros |
| Payload.FlushByte | compression/hauffman_tree.cpp:227-229 | moving the first 8 buffered digits into a byte keeps the expanded stream unchanged |
| Decoder.Walk | compression/hauffman_tree.cpp:299-313 | the walk emits at most one symbol per bit, and its only failure is a step to a missing child |
| Decoder.DecodeText | compression/hauffman_tree.cpp:285-303 | the text after the header decodes to at most 8 symbols per payload byte, and a text with no pad-count byte is an error |
| Decoder.Decompress | compression/hauffman_tree.cpp:280-297 | a file that decodes holds a count byte, 17 bytes per symbol and a pad-count byte, and yields at most 8 symbols per payload byte |
| Decoder.WalkOneCode | compression/hauffman_tree.cpp:304-312 | from any node on a code's path, reading the rest of the code emits its leaf's symbol and restarts at the root |
| Decoder.WalkCode | compression/hauffman_tree.cpp:304-312 | from the root, a whole code emits its symbol and the walk carries on at the root |
| Decoder.WalkDecodes | compression/hauffman_tree.cpp:299-314 | walking the concatenated codes of a symbol sequence through a tree whose codes lead to their leaves gives back that sequence |
| Decoder.FileLayout | compression/hauffman_tree.cpp:287-288 | in a written file the payload starts at offset `1 + 17 * S` |
| Decoder.DecompressInverts | test/hauffman_tree_test.cpp:44-56 | a file made of the header of a valid table, a payload that unpacks to the codes of a sequence and its pad count decodes to that sequence |
| Codec.HuffmanCodes | compression/hauffman_tree.cpp:325-330 | the table built from an input has at most 128 entries, valid prefix-free codes, and a code for exactly the characters of the input |
| Codec.EncodeSave | compression/hauffman_tree.cpp:188-246 | the file written for a valid table that covers the input decodes back to the input; it starts with exactly the header `Header.Write` gives, ends with a pad count of at most 8, and has `1 + 17 * S + ceil(bits / 8) + 1` bytes for `bits` code bits (`1 + 17 * S + 2` when there are none) |
| Codec.Compress | compression/hauffman_tree.cpp:325-338 | decoding the file encode produces gives the input back, for every pop order of the merge loop and every order of the header entries |

## Left out

- The thread pool (`thread_pool.cpp`, `thread_pool.h`) is left out: `dispatch` of `traverse` and the two `async_job` loops are modelled as sequential code that finishes before its result is read.
- `createNodeArray` and its parallel `for_each` are left out; only its result is modelled, node i with id i and frequency 0.
- File I/O is left out: opening, reading, seeking and writing files and the `false` returns on open failure. The input is a sequence of bytes, the compressed file a sequence of bytes.
- The `eof()`-before-`get` loop of `createFrequencyPriorityQueue` counts the last character twice. This changes a frequency but no code, so frequency counting is modelled as an exact count.
- The pointer order of the priority queue is not modelled. Pops are arbitrary, both in the merge loop and in the copy `encodeSave` writes the header from, so the header lists the traversed entries in any order. Nothing is claimed about Huffman optimality or the compressed size relative to the input.
- Codec.HuffmanCodes: requires at least two distinct characters, because with one or none the merge loop never runs, `root_` stays null and `traverse` dereferences it.
- Codec.HuffmanCodes: requires every character to be below 128, because `node_array_[id_]` with a larger or negative `char` is out of bounds.
- `int freq` may overflow for an input of more than 2^31 - 1 copies of one character, and the merged sums sooner. No frequency is written to the file or read back, and the codes do not depend on frequencies in this model (pops are arbitrary), so frequencies are unbounded naturals.
- On an empty input the first `get` fails and the zero-initialised `id_` counts character 0 once. Such an input is outside `Codec.Encodable`, which asks for two distinct characters.
- Allocation, ownership and leaks of `huffman_node` are not modelled. The decoder's tree is an immutable `Rebuild.Slot` value.
- Bits.DecimalToBinary: defined for bytes only, because a value of 256 or more makes the padding length wrap around.
- Header.Field: defined for codes of at most 127 bits only, because a longer code makes `127 - code.size()` wrap around. A tree from the 128-character alphabet never produces one.
- Decoder.Walk: bits left after the last emitted symbol are ignored, as the C++ loop ignores them. A stricter reading of the format calls such a file malformed; the model follows the code.
- Decoder.WalkDecodes: states what the walk gives for concatenations of codes only. Other bit strings may decode to anything or fail.
- Decoder.Decompress: returns an error where the C++ decoder has undefined behaviour: an empty file, a header shorter than its count promises, a code field of zeros only, a step to a missing child and a file with nothing after the header. The file's signedness casts become plain byte values, except the signed `count0`, which `Payload.Keep` models.

=== FILE: bits.dfy ===
/** Bytes and the '0'/'1' character strings the codec shuttles them through
    (decimalToBinary / binaryToDecimal and the 8-bit cutting around them). */
module Bits {

  /** A byte as an unsigned integer; signedness casts of the C++ code are
      resolved at each use. */
  type Byte = b: int | 0 <= b < 256

  predicate IsBits(s: string) {
    forall k :: 0 <= k < |s| ==> s[k] == '0' || s[k] == '1'
  }

  /** `a` is a (not necessarily proper) prefix of `b`. */
  predicate IsPrefix(a: string, b: string) {
    |a| <= |b| && b[..|a|] == a
  }

  function Zeros(n: nat): (r: string)
    ensures |r| == n
    ensures forall k :: 0 <= k < n ==> r[k] == '0'
  {
    if n == 0 then "" else Zeros(n - 1) + "0"
  }

  function Pow2(n: nat): (r: nat)
    ensures r >= 1
  {
    if n == 0 then 1 else 2 * Pow2(n - 1)
  }

  /** The number a string of binary digits denotes, most significant digit
      first, as `stoi(s, 0, 2)` reads it. */
  function Value(s: string): nat
  {
    if s == [] then 0 else 2 * Value(s[..|s| - 1]) + (if s[|s| - 1] == '1' then 1 else 0)
  }

  /** The digits the loop of decimalToBinary collects, least significant first. */
  function LsbDigits(n: nat): string
  {
    if n == 0 then "" else [if n % 2 == 0 then '0' else '1'] + LsbDigits(n / 2)
  }

  function Reverse(s: string): (r: string)
    ensures |r| == |s|
  {
    if s == [] then [] else Reverse(s[1..]) + [s[0]]
  }

  /** decimalToBinary: left-pad the reversed digit string with '0' to 8
      characters. Defined for bytes only; a larger input makes the C++
      padding length wrap around. */
  function DecimalToBinary(n: Byte): (r: string)
    ensures |r| == 8 && IsBits(r)
    ensures Value(r) == n
  {
    LsbDigitsShort(n, 8);
    ReversedDigitsValue(n);
    ValueOfZerosThen(8 - |LsbDigits(n)|, Reverse(LsbDigits(n)));
    Zeros(8 - |LsbDigits(n)|) + Reverse(LsbDigits(n))
  }

  /** binaryToDecimal on the 8-character strings the codec hands it. */
  function BinaryToDecimal(s: string): (n: Byte)
    requires |s| == 8 && IsBits(s)
    ensures DecimalToBinary(n) == s
  {
    ValueBelowPow2(s);
    assert Pow2(8) == 256;
    ValueInjective(DecimalToBinary(Value(s)), s);
    Value(s)
  }

  /** The bytes of `bytes`, each written as 8 binary digits, concatenated. */
  function Expand(bytes: seq<Byte>): (r: string)
    ensures |r| == 8 * |bytes| && IsBits(r)
  {
    if bytes == [] then "" else DecimalToBinary(bytes[0]) + Expand(bytes[1..])
  }

  /** Cutting a bit string into 8-character pieces, each turned into a byte:
      the `substr(0, 8)` / `binaryToDecimal` loops of the encoder. */
  function Chunk(bits: string): (r: seq<Byte>)
    requires |bits| % 8 == 0 && IsBits(bits)
    ensures |r| == |bits| / 8
    ensures Expand(r) == bits
    decreases |bits|
  {
    if bits == [] then [] else [BinaryToDecimal(bits[..8])] + Chunk(bits[8..])
  }

  // ---------------------------------------------------------------------------
  // Lemmas

  lemma {:induction false} LsbDigitsShort(n: nat, k: nat)
    requires n < Pow2(k)
    ensures |LsbDigits(n)| <= k
  {
    if n != 0 {
      LsbDigitsShort(n / 2, k - 1);
    }
  }

  lemma {:induction false} ReverseBits(s: string)
    requires IsBits(s)
    ensures IsBits(Reverse(s))
  {
    if s != [] {
      ReverseBits(s[1..]);
    }
  }

  lemma {:induction false} ReversedDigitsValue(n: nat)
    ensures Value(Reverse(LsbDigits(n))) == n
    ensures IsBits(Reverse(LsbDigits(n)))
  {
    if n != 0 {
      var d := LsbDigits(n);
      ReversedDigitsValue(n / 2);
      assert d[1..] == LsbDigits(n / 2);
      var r := Reverse(d);
      assert r[..|r| - 1] == Reverse(LsbDigits(n / 2));
    } else {
      assert Reverse(LsbDigits(n)) == "";
    }
    LsbDigitsAreBits(n);
    ReverseBits(LsbDigits(n));
  }

  lemma {:induction false} LsbDigitsAreBits(n: nat)
    ensures IsBits(LsbDigits(n))
  {
    if n != 0 {
      LsbDigitsAreBits(n / 2);
    }
  }

  /** Leading zeros do not change the value of a binary numeral. */
  lemma {:induction false} ValueOfZerosThen(k: nat, s: string)
    ensures Value(Zeros(k) + s) == Value(s)
    decreases |s|, k
  {
    if s == [] {
      assert Zeros(k) + s == Zeros(k);
      if k > 0 {
        assert Zeros(k)[..k - 1] == Zeros(k - 1);
        ValueOfZerosThen(k - 1, "");
        assert Zeros(k - 1) + "" == Zeros(k - 1);
      }
    } else {
      var t := Zeros(k) + s;
      assert t[..|t| - 1] == Zeros(k) + s[..|s| - 1];
      ValueOfZerosThen(k, s[..|s| - 1]);
    }
  }

  lemma {:induction false} ValueBelowPow2(s: string)
    ensures Value(s) < Pow2(|s|)
  {
    if s != [] {
      ValueBelowPow2(s[..|s| - 1]);
    }
  }

  /** Two binary numerals of the same width and value are the same string. */
  lemma {:induction false} ValueInjective(s: string, t: string)
    requires |s| == |t| && IsBits(s) && IsBits(t)
    requires Value(s) == Value(t)
    ensures s == t
  {
    if s != [] {
      var n := |s| - 1;
      assert s[n] == t[n];
      ValueInjective(s[..n], t[..n]);
      assert s == s[..n] + [s[n]];
      assert t == t[..n] + [t[n]];
    }
  }

  /** A number below 256 is its own byte: the header's count byte
      `|table| % 256` is the table size. Kept apart so the `%` fact stays out
      of the larger proof that uses it. */
  lemma ByteMod(n: nat)
    requires n < 256
    ensures n % 256 == n
  {
  }

  lemma BitsConcat(a: string, b: string)
    requires IsBits(a) && IsBits(b)
    ensures IsBits(a + b)
  {
  }

  lemma {:induction false} ExpandAppend(a: seq<Byte>, b: seq<Byte>)
    ensures Expand(a + b) == Expand(a) + Expand(b)
  {
    if a != [] {
      assert (a + b)[1..] == a[1..] + b;
      ExpandAppend(a[1..], b);
    } else {
      assert a + b == b;
    }
  }
}

=== FILE: code_table.dfy ===
/** The symbol-to-code table the encoder reads (each leaf's `code` field) and
    the header carries. */
module CodeTable {
  import opened Bits

  datatype Entry = Entry(sym: Byte, code: string)

  /** No entry's code is a prefix of another entry's code. */
  predicate PrefixFree(table: seq<Entry>) {
    forall a, b :: 0 <= a < |table| && 0 <= b < |table| && a != b ==>
      !IsPrefix(table[a].code, table[b].code)
  }

  /** What the header format and the decoder need of a table: bit-string codes
      that fit the 128-bit field next to the sentinel, and prefix-freeness. */
  predicate ValidTable(table: seq<Entry>) {
    && (forall k :: 0 <= k < |table| ==> IsBits(table[k].code) && 1 <= |table[k].code| <= 127)
    && PrefixFree(table)
  }

  /** The same entries in another order: encodeSave lists the queue's leaves
      in the pop order of a copy of the queue, which need not be the order
      traverse visited them. Reordering keeps the table valid and keeps its
      symbols. */
  lemma PermutedTable(table: seq<Entry>, other: seq<Entry>)
    requires ValidTable(table) && multiset(other) == multiset(table)
    ensures ValidTable(other) && |other| == |table|
    ensures forall x: Byte :: HasSymbol(other, x) <==> HasSymbol(table, x)
  {
    assert |other| == |multiset(other)| == |multiset(table)| == |table|;
    ValidDistinct(table);
    forall k | 0 <= k < |other|
      ensures other[k] in table
    {
      assert other[k] in multiset(table);
    }
    forall a, b | 0 <= a < |other| && 0 <= b < |other| && a != b
      ensures !IsPrefix(other[a].code, other[b].code)
    {
      var lo, hi := if a < b then a else b, if a < b then b else a;
      CountPair(other, lo, hi);
      DistinctCount(table, other[lo]);
      var i :| 0 <= i < |table| && table[i] == other[a];
      var j :| 0 <= j < |table| && table[j] == other[b];
    }
    forall x: Byte
      ensures HasSymbol(other, x) <==> HasSymbol(table, x)
    {
      if HasSymbol(table, x) {
        var i :| 0 <= i < |table| && table[i].sym == x;
        assert table[i] in multiset(other);
        var k :| 0 <= k < |other| && other[k] == table[i];
      }
    }
  }

  /** A valid table has no entry twice: a code is a prefix of itself. */
  lemma ValidDistinct(table: seq<Entry>)
    requires ValidTable(table)
    ensures forall a, b :: 0 <= a < |table| && 0 <= b < |table| && a != b ==> table[a] != table[b]
  {
    forall a, b | 0 <= a < |table| && 0 <= b < |table| && a != b
      ensures table[a] != table[b]
    {
      assert IsPrefix(table[a].code, table[a].code);
    }
  }

  /** A value at two positions occurs at least twice. */
  lemma CountPair<T>(s: seq<T>, a: nat, b: nat)
    requires a < b < |s|
    ensures multiset(s)[s[a]] >= (if s[a] == s[b] then 2 else 1)
  {
    assert s == s[..b] + [s[b]] + s[b + 1..];
    assert s[..b][a] == s[a];
  }

  /** In a sequence without repeats every value occurs at most once. */
  lemma {:induction false} DistinctCount<T>(s: seq<T>, e: T)
    requires forall a, b :: 0 <= a < |s| && 0 <= b < |s| && a != b ==> s[a] != s[b]
    ensures multiset(s)[e] <= 1
  {
    if s != [] {
      var n := |s| - 1;
      assert forall a :: 0 <= a < n ==> s[..n][a] == s[a];
      DistinctCount(s[..n], e);
      assert s == s[..n] + [s[n]];
      if e == s[n] {
        assert e !in s[..n];
      }
    }
  }

  predicate HasSymbol(table: seq<Entry>, x: Byte) {
    exists k :: 0 <= k < |table| && table[k].sym == x
  }

  /** Every symbol of `xs` has an entry. */
  predicate Covers(table: seq<Entry>, xs: seq<Byte>) {
    forall k :: 0 <= k < |xs| ==> HasSymbol(table, xs[k])
  }

  /** The code the encoder appends for symbol `x` (`node_array_[x]->code`):
      the code of `x`'s entry, or the empty string a node outside the tree
      still holds. */
  function CodeOf(table: seq<Entry>, x: Byte): (r: string)
    ensures HasSymbol(table, x) ==>
      exists k :: 0 <= k < |table| && table[k].sym == x && table[k].code == r
    ensures !HasSymbol(table, x) ==> r == ""
  {
    if table == [] then ""
    else if table[0].sym == x then table[0].code
    else
      assert HasSymbol(table, x) ==> HasSymbol(table[1..], x) by {
        if HasSymbol(table, x) {
          var k :| 0 <= k < |table| && table[k].sym == x;
          assert table[1..][k - 1].sym == x;
        }
      }
      CodeOf(table[1..], x)
  }

  predicate AllBits(table: seq<Entry>) {
    forall k :: 0 <= k < |table| ==> IsBits(table[k].code)
  }

  predicate NoEmptyCode(table: seq<Entry>) {
    forall k :: 0 <= k < |table| ==> table[k].code != []
  }

  /** The concatenated codes of `xs`, in order: a bit string when the codes
      are, with at least one bit per symbol when every symbol has a code and
      no code is empty. */
  function CodeBits(table: seq<Entry>, xs: seq<Byte>): (r: string)
    ensures AllBits(table) ==> IsBits(r)
    ensures NoEmptyCode(table) && Covers(table, xs) ==> |r| >= |xs|
  {
    if xs == [] then "" else CodeOf(table, xs[0]) + CodeBits(table, xs[1..])
  }

  lemma {:induction false} CodeOfBits(table: seq<Entry>, x: Byte)
    requires AllBits(table)
    ensures IsBits(CodeOf(table, x))
  {
  }

  lemma {:induction false} CodeBitsAppend(table: seq<Entry>, xs: seq<Byte>, x: Byte)
    ensures CodeBits(table, xs + [x]) == CodeBits(table, xs) + CodeOf(table, x)
  {
    if xs == [] {
      assert [x][1..] == [];
    } else {
      assert (xs + [x])[1..] == xs[1..] + [x];
      CodeBitsAppend(table, xs[1..], x);
    }
  }
}

=== FILE: codec.dfy ===
/** HuffmanTree::encode and HuffmanTree::decode end to end: the encoder's
    pipeline on an in-memory input, and the promise that decoding its output
    gives the input back. */
module Codec {
  import opened Outcomes
  import opened Bits
  import opened CodeTable
  import opened HuffmanTree
  import Header
  import opened Payload
  import opened Decoder

  /** The input the encoder handles: characters that index its 128-entry
      node array, with at least two different ones so the tree has a root
      node with children. */
  predicate Encodable(input: seq<Byte>) {
    && (forall k :: 0 <= k < |input| ==> input[k] < AlphabetSize)
    && (exists a, b :: 0 <= a < |input| && 0 <= b < |input| && input[a] != input[b])
  }

  /** encode: the table of codes, then the file written with it. The header
      lists the entries in the pop order of a copy of the queue, any order of
      the entries traverse produced. For every pop order, in the tree and in
      the header, the file decodes back to the input. */
  method Compress(input: seq<Byte>) returns (file: seq<Byte>)
    requires Encodable(input)
    ensures Decompress(file) == Ok(input)
  {
    var codes := HuffmanCodes(input);
    // `codes` itself witnesses the choice below
    assert multiset(codes) == multiset(codes);
    var order :| multiset(order) == multiset(codes);
    PermutedTable(codes, order);
    file := EncodeSave(order, input);
  }

  /** createFrequencyPriorityQueue, create_huffman_tree (in any pop order) and
      calculateHuffmanCodes: the table holds a valid code for exactly the
      characters of the input. */
  method HuffmanCodes(input: seq<Byte>) returns (codes: seq<Entry>)
    requires Encodable(input)
    ensures ValidTable(codes) && |codes| <= AlphabetSize
    ensures forall x: Byte :: HasSymbol(codes, x) <==> x in input
  {
    var a, b :| 0 <= a < |input| && 0 <= b < |input| && input[a] != input[b];
    var queue := FrequencyQueue(input);
    FrequencyQueueSize(input, a, b);
    var root := BuildTree(queue);
    codes := Traverse(root, "");
    CodesValid(queue, root, codes);
    CodesCoverInput(input, queue, root, codes);
    CodesFromInput(input, queue, root, codes);
  }

  /** encodeSave: the header for `codes`, the packed payload and the pad
      count, which decode back to the input. The file is the header, then
      one byte per started 8 bits of code (a single zero byte when there
      are none), then the pad count of at most 8. */
  method EncodeSave(codes: seq<Entry>, input: seq<Byte>) returns (file: seq<Byte>)
    requires ValidTable(codes) && |codes| <= AlphabetSize
    requires Covers(codes, input)
    ensures Decompress(file) == Ok(input)
    ensures Header.AllFit(codes) && |file| > Header.Size(|codes|)
    ensures file[..Header.Size(|codes|)] == Header.Write(codes)
    ensures |CodeBits(codes, input)| > 0 ==>
      |file| == Header.Size(|codes|) + (|CodeBits(codes, input)| + 7) / 8 + 1
    ensures |CodeBits(codes, input)| == 0 ==> |file| == Header.Size(|codes|) + 2
    ensures file[|file| - 1] <= 8
  {
    var payload, count := PackPayload(codes, input);
    Header.ValidTableFits(codes);
    file := Header.Write(codes) + payload + [count];
    assert file[..Header.Size(|codes|)] == Header.Write(codes);
    DecompressInverts(codes, input, payload, count);
  }

  /** The table traverse assigns is valid: the tree has a root node, so
      every code has a bit; its height is below the queue's size of at most
      128, so every code fits its field; and its codes are prefix-free. */
  lemma {:induction false} CodesValid(queue: seq<Tree>, root: Tree, codes: seq<Entry>)
    requires |queue| <= AlphabetSize
    requires root.Node? && Height(root) < |queue|
    requires multiset(Leaves(root)) == multiset(queue)
    requires codes == Traverse(root, "")
    ensures ValidTable(codes) && |codes| == |queue|
  {
    TraversePrefixFree(root, "");
    assert |multiset(Leaves(root))| == |Leaves(root)|;
  }

  /** Every input character has a code: its leaf is in the queue, and the
      tree holds exactly the queue's leaves. */
  lemma {:induction false} CodesCoverInput(input: seq<Byte>, queue: seq<Tree>, root: Tree, codes: seq<Entry>)
    requires forall k :: 0 <= k < |input| ==> input[k] < AlphabetSize
    requires queue == FrequencyQueue(input)
    requires multiset(Leaves(root)) == multiset(queue)
    requires codes == Traverse(root, "")
    ensures forall x: Byte :: x in input ==> HasSymbol(codes, x)
  {
    forall x: Byte | x in input
      ensures HasSymbol(codes, x)
    {
      var i :| 0 <= i < |input| && input[i] == x;
      var leaf := Leaf(x, Count(input, x));
      assert leaf in queue;
      assert leaf in multiset(Leaves(root));
      var m :| 0 <= m < |Leaves(root)| && Leaves(root)[m] == leaf;
      assert codes[m].sym == x;
    }
  }

  /** Every code belongs to an input character: each leaf of the tree comes
      from the queue, which holds only characters that occur. */
  lemma {:induction false} CodesFromInput(input: seq<Byte>, queue: seq<Tree>, root: Tree, codes: seq<Entry>)
    requires queue == FrequencyQueue(input)
    requires multiset(Leaves(root)) == multiset(queue)
    requires codes == Traverse(root, "")
    ensures forall x: Byte :: HasSymbol(codes, x) ==> x in input
  {
    forall x: Byte | HasSymbol(codes, x)
      ensures x in input
    {
      var m :| 0 <= m < |codes| && codes[m].sym == x;
      SymbolFromInput(input, 0, root, m);
    }
  }

  lemma SymbolFromInput(input: seq<Byte>, lo: nat, root: Tree, m: nat)
    requires lo <= AlphabetSize
    requires multiset(Leaves(root)) == multiset(QueueFrom(input, lo))
    requires m < |Leaves(root)|
    ensures Traverse(root, "")[m].sym in input
  {
    var leaf := Leaves(root)[m];
    assert leaf in multiset(Leaves(root));
    assert leaf in QueueFrom(input, lo);
    QueuedSymbolOccurs(input, lo, leaf);
  }

  /** A node of the frequency queue is a leaf holding a character of the
      input. */
  lemma QueuedSymbolOccurs(input: seq<Byte>, lo: nat, leaf: Tree)
    requires lo <= AlphabetSize && leaf in QueueFrom(input, lo)
    ensures leaf.Leaf? && leaf.id in input
  {
    var queue := QueueFrom(input, lo);
    var k :| 0 <= k < |queue| && queue[k] == leaf;
  }
}

=== FILE: decoder.dfy ===
/** decodeSave: read the pad count and the payload of a compressed file and
    walk the rebuilt tree bit by bit. */
module Decoder {
  import opened Outcomes
  import opened Bits
  import opened CodeTable
  import Header
  import opened Rebuild
  import opened Payload

  /** The decoding walk: each bit moves `cur` to its left ('0') or right (any
      other digit) child; reaching a node without children emits its id and
      restarts at `root`. Stepping to a missing child is the null dereference
      of the C++ loop. Bits left over after the last emitted symbol are
      ignored, as the C++ loop ignores them. */
  function Walk(root: Slot, cur: Slot, bits: string): (r: Result<seq<Byte>>)
    ensures r.Ok? ==> |r.value| <= |bits|
    ensures r.Err? ==> r.error == NullBranch
    decreases |bits|
  {
    if bits == [] then Ok([])
    else if cur.Null? then Err(NullBranch)
    else
      var next := if bits[0] == '0' then cur.left else cur.right;
      if next.Null? then Err(NullBranch)
      else if next.left.Null? && next.right.Null? then
        Emit(next.id, Walk(root, root, bits[1..]))
      else Walk(root, next, bits[1..])
  }

  /** Put `sym` in front of the rest of the output, unless decoding failed. */
  function Emit(sym: Byte, rest: Result<seq<Byte>>): (r: Result<seq<Byte>>)
    ensures r.Ok? <==> rest.Ok?
    ensures r.Ok? ==> r.value == [sym] + rest.value
    ensures r.Err? ==> r == rest
  {
    if rest.Ok? then Ok([sym] + rest.value) else rest
  }

  /** decodeSave after the header: the last byte is the pad count, the bytes
      before it the payload, walked through the tree rebuilt from `table`. */
  function DecodeText(table: seq<Entry>, text: seq<Byte>): (r: Result<seq<Byte>>)
    ensures r.Ok? ==> |text| >= 1 && |r.value| <= 8 * (|text| - 1)
    ensures |text| == 0 ==> r == Err(Truncated)
  {
    if |text| == 0 then Err(Truncated)
    else
      var payload := text[..|text| - 1];
      var count := text[|text| - 1];
      var bits := if payload == [] then "" else Unpack(payload, count);
      Walk(Recreate(table), Recreate(table), bits)
  }

  /** recreateHuffmanTree followed by decodeSave, on the bytes of a file. */
  function Decompress(file: seq<Byte>): (r: Result<seq<Byte>>)
    ensures r.Ok? ==> |file| > 0 && |file| >= Header.Size(file[0]) + 1
    ensures r.Ok? ==> |file| > 0 && |r.value| <= 8 * (|file| - 1 - Header.Size(file[0]))
  {
    if |file| == 0 then Err(Truncated)
    else
      var parsed := Header.ParseEntries(file[1..], file[0]);
      if parsed.Err? then Err(parsed.error)
      else DecodeText(parsed.value, file[Header.Size(file[0])..])
  }

  // ---------------------------------------------------------------------------
  // Correctness of the walk

  /** The walk consumes one code: starting at the node reached by the first
      `k` bits of a code that leads to a leaf, it emits that leaf's symbol
      after the code's last bit and carries on from the root. */
  lemma {:induction false} WalkOneCode(root: Slot, c: string, sym: Byte, rest: string, k: nat)
    requires k < |c|
    requires Follow(root, c) == Cell(sym, Null, Null)
    ensures Walk(root, Follow(root, c[..k]), c[k..] + rest) == Emit(sym, Walk(root, root, rest))
    decreases |c| - k
  {
    PathStep(root, c, k);
    var bits := c[k..] + rest;
    assert bits[0] == c[k] && bits[1..] == c[k + 1..] + rest;
    if k + 1 == |c| {
      assert c[..k + 1] == c;
      assert c[k + 1..] + rest == rest;
    } else {
      InnerHasChild(root, c, k + 1);
      WalkOneCode(root, c, sym, rest, k + 1);
    }
  }

  /** From the root, the walk reads a whole code and emits its symbol. */
  lemma {:induction false} WalkCode(root: Slot, c: string, sym: Byte, rest: string)
    requires |c| >= 1 && Follow(root, c) == Cell(sym, Null, Null)
    ensures Walk(root, root, c + rest) == Emit(sym, Walk(root, root, rest))
  {
    assert c[..0] == [] && c[0..] == c;
    WalkOneCode(root, c, sym, rest, 0);
  }

  /** Every prefix of a path that reaches a node reaches a node. */
  lemma PrefixReaches(root: Slot, c: string, k: nat)
    requires k <= |c| && Follow(root, c).Cell?
    ensures Follow(root, c[..k]).Cell?
  {
    assert c == c[..k] + c[k..];
    FollowAppend(root, c[..k], c[k..]);
    FollowNull(c[k..]);
  }

  /** The node after `k + 1` bits is the child bit `k` selects. */
  lemma PathStep(root: Slot, c: string, k: nat)
    requires k < |c| && Follow(root, c).Cell?
    ensures Follow(root, c[..k]).Cell?
    ensures Follow(root, c[..k + 1]) ==
      (if c[k] == '0' then Follow(root, c[..k]).left else Follow(root, c[..k]).right)
  {
    PrefixReaches(root, c, k);
    assert c[..k + 1] == c[..k] + [c[k]];
    FollowAppend(root, c[..k], [c[k]]);
  }

  /** A node strictly inside a path that reaches a node has a child. */
  lemma InnerHasChild(root: Slot, c: string, k: nat)
    requires k < |c| && Follow(root, c).Cell?
    ensures Follow(root, c[..k]).Cell?
    ensures !(Follow(root, c[..k]).left.Null? && Follow(root, c[..k]).right.Null?)
  {
    PathStep(root, c, k);
    PrefixReaches(root, c, k + 1);
  }

  /** Walking the concatenated codes of `xs` from the root of a tree in which
      every (nonempty) code leads to a leaf holding its symbol gives back
      `xs`. */
  lemma {:induction false} WalkDecodes(root: Slot, table: seq<Entry>, xs: seq<Byte>)
    requires forall k :: 0 <= k < |table| ==> table[k].code != []
    requires CodesReachLeaves(root, table)
    requires Covers(table, xs)
    ensures Walk(root, root, CodeBits(table, xs)) == Ok(xs)
  {
    if xs != [] {
      var x, more := xs[0], CodeBits(table, xs[1..]);
      var c := CodeOf(table, x);
      CodeLeads(root, table, x);
      assert CodeBits(table, xs) == c + more;
      WalkCode(root, c, x, more);
      CoversTail(table, xs);
      WalkDecodes(root, table, xs[1..]);
      assert [x] + xs[1..] == xs;
    }
  }

  /** The code of a symbol in the table leads to the leaf holding it. */
  lemma CodeLeads(root: Slot, table: seq<Entry>, x: Byte)
    requires forall k :: 0 <= k < |table| ==> table[k].code != []
    requires CodesReachLeaves(root, table)
    requires HasSymbol(table, x)
    ensures |CodeOf(table, x)| >= 1
    ensures Follow(root, CodeOf(table, x)) == Cell(x, Null, Null)
  {
    var m :| 0 <= m < |table| && table[m].sym == x && table[m].code == CodeOf(table, x);
  }

  lemma CoversTail(table: seq<Entry>, xs: seq<Byte>)
    requires xs != [] && Covers(table, xs)
    ensures HasSymbol(table, xs[0]) && Covers(table, xs[1..])
  {
    forall k | 0 <= k < |xs[1..]|
      ensures HasSymbol(table, xs[1..][k])
    {
      assert xs[1..][k] == xs[k + 1];
    }
  }

  /** decode(encode(xs)) == xs: a file made of the header for a valid table,
      a payload that unpacks to the codes of `xs`, and its pad count decodes
      to `xs`. */
  lemma {:induction false} DecompressInverts(table: seq<Entry>, xs: seq<Byte>, payload: seq<Byte>, count: Byte)
    requires ValidTable(table) && |table| < 256
    requires Covers(table, xs)
    requires |payload| >= 1 && count <= 8
    requires Unpack(payload, count) == CodeBits(table, xs)
    ensures Decompress(Header.Write(table) + payload + [count]) == Ok(xs)
  {
    Header.ValidTableFits(table);
    var file := Header.Write(table) + payload + [count];
    FileLayout(table, Header.Write(table), payload, count, file);
    Header.EntriesRoundTrip(table, payload + [count]);
    assert Header.ParseEntries(file[1..], file[0]) == Ok(table);
    DecompressSplits(file, table);
    TextDecodes(table, xs, payload, count);
  }

  /** Once the header parses, the rest of the file is decoded with it. */
  lemma DecompressSplits(file: seq<Byte>, table: seq<Entry>)
    requires |file| > 0 && Header.ParseEntries(file[1..], file[0]) == Ok(table)
    ensures Decompress(file) == DecodeText(table, file[Header.Size(file[0])..])
  {
  }

  /** The part after the header decodes to `xs`. */
  lemma {:induction false} TextDecodes(table: seq<Entry>, xs: seq<Byte>, payload: seq<Byte>, count: Byte)
    requires ValidTable(table)
    requires Covers(table, xs)
    requires |payload| >= 1 && count <= 8
    requires Unpack(payload, count) == CodeBits(table, xs)
    ensures DecodeText(table, payload + [count]) == Ok(xs)
  {
    var text := payload + [count];
    assert text[..|text| - 1] == payload && text[|text| - 1] == count;
    RebuildLeaves(table);
    WalkDecodes(Recreate(table), table, xs);
  }

  /** Where the parts of a written file sit. */
  lemma {:induction false} FileLayout(table: seq<Entry>, header: seq<Byte>, payload: seq<Byte>, count: Byte, file: seq<Byte>)
    requires Header.AllFit(table)
    requires |table| < 256
    requires header == Header.Write(table) && file == header + payload + [count]
    ensures |file| > 0 && file[0] == |table|
    ensures |file| > Header.Size(file[0])
    ensures file[1..] == Header.Entries(table) + (payload + [count])
    ensures file[Header.Size(file[0])..] == payload + [count]
  {
    var e := Header.Entries(table);
    var size: Byte := |table|;
    ByteMod(|table|);
    assert header == [size] + e;
    SplitFile(size, e, payload, count, file);
  }

  lemma SplitFile<T>(x: T, e: seq<T>, p: seq<T>, c: T, file: seq<T>)
    requires file == [x] + e + p + [c]
    ensures |file| > 1 + |e| && file[0] == x
    ensures file[1..] == e + (p + [c])
    ensures file[1 + |e|..] == p + [c]
    ensures file[|file| - 1] == c
  {
    assert file == [x] + (e + (p + [c]));
  }
}

=== FILE: header.dfy ===
/** The header of a compressed file: a symbol-count byte, then per symbol its
    byte and a 16-byte field holding the code behind zeros and a sentinel '1'
    (encodeSave writes it, recreateHuffmanTree reads it). */
module Header {
  import opened Outcomes
  import opened Bits
  import opened CodeTable

  /** Bits in a code field; the longest code that fits is one shorter. */
  const FieldBits := 128
  const FieldBytes := 16

  /** A code the field can hold next to its sentinel. */
  predicate FitsField(code: string) {
    IsBits(code) && |code| <= FieldBits - 1
  }

  predicate AllFit(table: seq<Entry>) {
    forall k :: 0 <= k < |table| ==> FitsField(table[k].code)
  }

  lemma AllFitTail(table: seq<Entry>)
    requires table != [] && AllFit(table)
    ensures FitsField(table[0].code) && AllFit(table[1..])
  {
    assert forall k :: 0 <= k < |table[1..]| ==> table[1..][k] == table[k + 1];
  }

  /** Every code of a valid table fits its field. */
  lemma ValidTableFits(table: seq<Entry>)
    requires ValidTable(table)
    ensures AllFit(table)
  {
  }

  /** The 128-character string the encoder builds for a code: 127 - |code|
      zeros, the sentinel '1', then the code. */
  function SentinelString(code: string): (s: string)
    requires IsBits(code) && |code| <= FieldBits - 1
    ensures |s| == FieldBits && IsBits(s)
  {
    Zeros(FieldBits - 1 - |code|) + "1" + code
  }

  /** The code field as written: the sentinel string cut into 16 bytes, most
      significant bit first. Codes longer than 127 bits have no field (the C++
      padding length would wrap around). */
  function Field(code: string): (r: seq<Byte>)
    requires IsBits(code) && |code| <= FieldBits - 1
    ensures |r| == FieldBytes
    ensures Expand(r) == SentinelString(code)
  {
    Chunk(SentinelString(code))
  }

  /** Number of leading '0' characters: the `while (h_code_s[j] == '0')` scan. */
  function LeadingZeros(s: string): (j: nat)
    ensures j <= |s|
    ensures forall k :: 0 <= k < j ==> s[k] == '0'
    ensures j < |s| ==> s[j] != '0'
  {
    if s == [] || s[0] != '0' then 0 else 1 + LeadingZeros(s[1..])
  }

  /** Reading a code field back: expand the 16 bytes to 128 bits, skip the
      zeros and the sentinel. A field of zeros only has no sentinel (in C++ the
      final `substr` throws). */
  function ParseField(field: seq<Byte>): (r: Result<string>)
    requires |field| == FieldBytes
    ensures r.Ok? ==> IsBits(r.value) && |r.value| <= FieldBits - 1
    ensures r.Ok? ==> Expand(field) == SentinelString(r.value)
    ensures r.Err? ==> Expand(field) == Zeros(FieldBits) && r.error == MissingSentinel
  {
    var s := Expand(field);
    var j := LeadingZeros(s);
    if j == |s| then
      AllZeros(s);
      Err(MissingSentinel)
    else
      SentinelAt(s, j);
      Ok(s[j + 1..])
  }

  lemma AllZeros(s: string)
    requires forall k :: 0 <= k < |s| ==> s[k] == '0'
    ensures s == Zeros(|s|)
  {
  }

  /** A bit string whose first non-zero digit is at `j` is `j` zeros, a
      sentinel '1', and what follows. */
  lemma SentinelAt(s: string, j: nat)
    requires IsBits(s) && |s| == FieldBits && j < |s|
    requires forall k :: 0 <= k < j ==> s[k] == '0'
    requires s[j] != '0'
    ensures IsBits(s[j + 1..]) && |s[j + 1..]| <= FieldBits - 1
    ensures s == SentinelString(s[j + 1..])
  {
    var code := s[j + 1..];
    assert FieldBits - 1 - |code| == j;
    assert s[..j] == Zeros(j);
    assert s == s[..j] + [s[j]] + code;
  }

  /** The 17 header bytes of one symbol: its byte, then its 16-byte code
      field. The decoder's seek past the header (`1 + 17 * size`) uses the same
      literal, so the model writes it out rather than naming it. */
  function Record(e: Entry): (r: seq<Byte>)
    requires FitsField(e.code)
    ensures |r| == 17 && r[0] == e.sym
    ensures ParseRecord(r) == Ok(e)
  {
    FieldRoundTrip(e.code);
    var r := [e.sym] + Field(e.code);
    assert r[1..] == Field(e.code);
    r
  }

  /** Reading one symbol's 17 bytes back. */
  function ParseRecord(r: seq<Byte>): (res: Result<Entry>)
    requires |r| == 17
    ensures res.Ok? ==> res.value.sym == r[0] && FitsField(res.value.code)
    ensures res.Err? ==> res.error == MissingSentinel
  {
    var code := ParseField(r[1..]);
    if code.Err? then Err(code.error) else Ok(Entry(r[0], code.value))
  }

  /** The per-symbol part of the header. */
  function Entries(table: seq<Entry>): (r: seq<Byte>)
    requires AllFit(table)
    ensures |r| == 17 * |table|
  {
    if table == [] then []
    else
      AllFitTail(table);
      Record(table[0]) + Entries(table[1..])
  }

  /** Bytes of a header that declares `count` symbols: the count byte and 17
      bytes per symbol, where the decoder seeks to the payload. */
  function Size(count: nat): nat {
    1 + 17 * count
  }

  /** The whole header; the count byte is the table size cut to a byte. */
  function Write(table: seq<Entry>): (r: seq<Byte>)
    requires AllFit(table)
    ensures |r| == Size(|table|)
    ensures r[0] == |table| % 256
  {
    [|table| % 256] + Entries(table)
  }

  /** Reading `count` entries from the front of `data`; the rest of `data` is
      left for the payload. */
  function ParseEntries(data: seq<Byte>, count: nat): (r: Result<seq<Entry>>)
    ensures r.Ok? ==> |r.value| == count && |data| >= 17 * count
    ensures r.Ok? ==> AllFit(r.value)
    decreases count
  {
    if count == 0 then Ok([])
    else if |data| < 17 then Err(Truncated)
    else
      var e := ParseRecord(data[..17]);
      if e.Err? then Err(e.error)
      else
        var rest := ParseEntries(data[17..], count - 1);
        if rest.Err? then rest
        else
          FitCons(e.value, rest.value);
          Ok([e.value] + rest.value)
  }

  lemma FitCons(e: Entry, more: seq<Entry>)
    requires FitsField(e.code) && AllFit(more)
    ensures AllFit([e] + more)
  {
    assert forall k :: 0 < k < |more| + 1 ==> ([e] + more)[k] == more[k - 1];
  }

  // ---------------------------------------------------------------------------
  // Round trips

  /** A written code field reads back as the code it was written for. */
  lemma FieldRoundTrip(code: string)
    requires IsBits(code) && |code| <= FieldBits - 1
    ensures ParseField(Field(code)) == Ok(code)
  {
    var s := SentinelString(code);
    var z := FieldBits - 1 - |code|;
    assert s[z] == '1';
    var j := LeadingZeros(s);
    assert j == z;
    assert s[j + 1..] == code;
  }

  /** The entries a table writes read back as that table, whatever follows
      them. */
  lemma {:induction false} EntriesRoundTrip(table: seq<Entry>, rest: seq<Byte>)
    requires AllFit(table)
    ensures ParseEntries(Entries(table) + rest, |table|) == Ok(table)
  {
    if table != [] {
      AllFitTail(table);
      var data := Entries(table) + rest;
      var tail := Entries(table[1..]) + rest;
      SplitRecord(Record(table[0]), Entries(table[1..]), rest, data);
      EntriesRoundTrip(table[1..], rest);
      ParseCons(data, tail, table);
    }
  }

  /** One entry parsed in front of the others. */
  lemma ParseCons(data: seq<Byte>, tail: seq<Byte>, all: seq<Entry>)
    requires all != [] && |data| >= 17
    requires ParseRecord(data[..17]) == Ok(all[0])
    requires data[17..] == tail && ParseEntries(tail, |all[1..]|) == Ok(all[1..])
    ensures ParseEntries(data, |all|) == Ok(all)
  {
    var e, more := all[0], all[1..];
    assert ParseEntries(data, |all|) == Ok([e] + more);
    assert [e] + more == all;
  }

  lemma SplitRecord<T>(r: seq<T>, more: seq<T>, rest: seq<T>, data: seq<T>)
    requires |r| == 17 && data == r + more + rest
    ensures |data| >= 17 && data[..17] == r && data[17..] == more + rest
  {
    assert data == r + (more + rest);
  }
}

=== FILE: huffman_tree.dfy ===
/** The encoder's tree: frequency counting, the merge loop of
    create_huffman_tree and the code assignment of traverse. */
module HuffmanTree {
  import opened Outcomes
  import opened Bits
  import opened CodeTable

  /** The alphabet the encoder indexes `node_array_` with. */
  const AlphabetSize := 128

  datatype Tree =
    | Leaf(id: Byte, freq: nat)
    | Node(freq: nat, left: Tree, right: Tree)

  /** The leaves of `t`, left to right. */
  function Leaves(t: Tree): (r: seq<Tree>)
    ensures |r| >= 1
    ensures forall k :: 0 <= k < |r| ==> r[k].Leaf?
  {
    match t
    case Leaf(_, _) => [t]
    case Node(_, l, r) => Leaves(l) + Leaves(r)
  }

  /** Length of the longest root-to-leaf path. */
  function Height(t: Tree): nat
  {
    match t
    case Leaf(_, _) => 0
    case Node(_, l, r) => 1 + (if Height(l) < Height(r) then Height(r) else Height(l))
  }

  /** Every internal node's frequency is the sum of its children's. */
  predicate FreqSums(t: Tree) {
    match t
    case Leaf(_, _) => true
    case Node(f, l, r) => f == l.freq + r.freq && FreqSums(l) && FreqSums(r)
  }

  /** The subtree reached from `t` along `path` ('0' left, anything else right). */
  function At(t: Tree, path: string): Option<Tree>
    decreases |path|
  {
    if path == [] then Some(t)
    else match t
      case Leaf(_, _) => None
      case Node(_, l, r) => At(if path[0] == '0' then l else r, path[1..])
  }

  // ---------------------------------------------------------------------------
  // Frequency counting (createFrequencyPriorityQueue without the file)

  /** The occurrences of `x` in `xs`: `freq++` once per character read. */
  function Count(xs: seq<Byte>, x: Byte): (c: nat)
    ensures c == multiset(xs)[x]
    ensures c <= |xs|
    ensures c > 0 <==> x in xs
  {
    if xs == [] then 0
    else
      assert xs == [xs[0]] + xs[1..];
      (if xs[0] == x then 1 else 0) + Count(xs[1..], x)
  }

  /** The leaves pushed onto the queue: one per symbol in [lo, 128) that
      occurs in `xs`, with its count as frequency. */
  function QueueFrom(xs: seq<Byte>, lo: nat): (r: seq<Tree>)
    requires lo <= AlphabetSize
    ensures |r| <= AlphabetSize - lo
    ensures forall k :: 0 <= k < |r| ==>
      r[k].Leaf? && lo <= r[k].id < AlphabetSize && r[k].freq == Count(xs, r[k].id) > 0
    ensures forall a, b :: 0 <= a < b < |r| ==> r[a].id < r[b].id
    ensures forall x: Byte :: lo <= x < AlphabetSize && x in xs ==> Leaf(x, Count(xs, x)) in r
    decreases AlphabetSize - lo
  {
    if lo == AlphabetSize then []
    else
      var rest := QueueFrom(xs, lo + 1);
      if Count(xs, lo) > 0 then [Leaf(lo, Count(xs, lo))] + rest else rest
  }

  /** createFrequencyPriorityQueue: exactly one leaf per character below 128
      that occurs in `xs`, with its count as frequency. */
  function FrequencyQueue(xs: seq<Byte>): (r: seq<Tree>)
    ensures |r| <= AlphabetSize
    ensures forall k :: 0 <= k < |r| ==> r[k].Leaf? && r[k].freq == Count(xs, r[k].id) > 0
    ensures forall a, b :: 0 <= a < b < |r| ==> r[a].id != r[b].id
    ensures forall x: Byte :: x < AlphabetSize ==> (x in xs <==> Leaf(x, Count(xs, x)) in r)
  {
    QueueFrom(xs, 0)
  }

  /** Two different symbols in the input give at least two queue nodes. */
  lemma {:induction false} FrequencyQueueSize(xs: seq<Byte>, a: nat, b: nat)
    requires a < |xs| && b < |xs| && xs[a] != xs[b]
    requires forall k :: 0 <= k < |xs| ==> xs[k] < AlphabetSize
    ensures |FrequencyQueue(xs)| >= 2
  {
    var q := FrequencyQueue(xs);
    var x, y := xs[a], xs[b];
    assert x in xs && y in xs;
    var lx, ly := Leaf(x, Count(xs, x)), Leaf(y, Count(xs, y));
    assert lx in q && ly in q;
    TwoMembers(q, lx, ly);
  }

  /** Two different members make a sequence of at least two; kept apart so
      the solver does not search the 128-step queue for it. */
  lemma TwoMembers(q: seq<Tree>, a: Tree, b: Tree)
    requires a in q && b in q && a != b
    ensures |q| >= 2
  {
  }

  // ---------------------------------------------------------------------------
  // The merge loop

  /** All leaves of the trees of a queue. */
  function AllLeaves(q: seq<Tree>): seq<Tree>
  {
    if q == [] then [] else Leaves(q[0]) + AllLeaves(q[1..])
  }

  function TotalFreq(q: seq<Tree>): nat
  {
    if q == [] then 0 else q[0].freq + TotalFreq(q[1..])
  }

  function Remove(q: seq<Tree>, i: nat): (r: seq<Tree>)
    requires i < |q|
    ensures |r| == |q| - 1
  {
    q[..i] + q[i + 1..]
  }

  /** One iteration of create_huffman_tree: pop the node at position `i`, then
      the node at position `j` of what remains (the queue compares node
      addresses, so any positions are possible), and push a new node whose
      children are the two in pop order. */
  function MergeStep(q: seq<Tree>, i: nat, j: nat): (r: seq<Tree>)
    requires i < |q| && j < |q| - 1
    ensures |r| == |q| - 1
    ensures r[|r| - 1].Node? && r[|r| - 1].freq == r[|r| - 1].left.freq + r[|r| - 1].right.freq
    ensures multiset(AllLeaves(r)) == multiset(AllLeaves(q))
    ensures TotalFreq(r) == TotalFreq(q)
    ensures (forall k :: 0 <= k < |q| ==> FreqSums(q[k])) ==>
              forall k :: 0 <= k < |r| ==> FreqSums(r[k])
  {
    var first := q[i];
    var rest := Remove(q, i);
    var second := rest[j];
    var merged := Node(first.freq + second.freq, first, second);
    MergeLeaves(q, i, rest, j, Remove(rest, j), merged);
    MergeFreq(q, i, rest, j, Remove(rest, j), merged);
    MergeFreqSums(q, i, rest, j, Remove(rest, j), merged);
    Remove(rest, j) + [merged]
  }

  lemma {:induction false} MergeLeaves(q: seq<Tree>, i: nat, rest: seq<Tree>, j: nat, kept: seq<Tree>, merged: Tree)
    requires i < |q| && rest == Remove(q, i) && j < |rest| && kept == Remove(rest, j)
    requires merged.Node? && merged.left == q[i] && merged.right == rest[j]
    ensures multiset(AllLeaves(kept + [merged])) == multiset(AllLeaves(q))
  {
    RemoveSplits(q, i);
    RemoveSplits(rest, j);
    QueueAppend(kept, [merged]);
    SingletonQueue(merged);
  }

  lemma {:induction false} MergeFreq(q: seq<Tree>, i: nat, rest: seq<Tree>, j: nat, kept: seq<Tree>, merged: Tree)
    requires i < |q| && rest == Remove(q, i) && j < |rest| && kept == Remove(rest, j)
    requires merged.Node? && merged.freq == q[i].freq + rest[j].freq
    ensures TotalFreq(kept + [merged]) == TotalFreq(q)
  {
    RemoveSplits(q, i);
    RemoveSplits(rest, j);
    QueueAppend(kept, [merged]);
    SingletonQueue(merged);
  }

  lemma MergeFreqSums(q: seq<Tree>, i: nat, rest: seq<Tree>, j: nat, kept: seq<Tree>, merged: Tree)
    requires i < |q| && rest == Remove(q, i) && j < |rest| && kept == Remove(rest, j)
    requires merged == Node(q[i].freq + rest[j].freq, q[i], rest[j])
    ensures (forall k :: 0 <= k < |q| ==> FreqSums(q[k])) ==>
              forall k :: 0 <= k < |kept| + 1 ==> FreqSums((kept + [merged])[k])
  {
    if forall k :: 0 <= k < |q| ==> FreqSums(q[k]) {
      RemoveKeeps(q, i);
      RemoveKeeps(rest, j);
      forall k | 0 <= k < |kept| + 1
        ensures FreqSums((kept + [merged])[k])
      {
        if k < |kept| {
          assert (kept + [merged])[k] == kept[k];
        }
      }
    }
  }

  /** create_huffman_tree for every order in which the queue may pop: while
      more than one node is left, merge two of them. */
  method BuildTree(queue: seq<Tree>) returns (root: Tree)
    requires |queue| >= 2
    requires forall k :: 0 <= k < |queue| ==> queue[k].Leaf?
    ensures root.Node?
    ensures multiset(Leaves(root)) == multiset(queue)
    ensures FreqSums(root)
    ensures Height(root) < |queue|
  {
    LeafQueue(queue);
    var q := queue;
    while |q| > 1
      invariant 1 <= |q| <= |queue|
      invariant |q| < |queue| ==> q[|q| - 1].Node?
      invariant multiset(AllLeaves(q)) == multiset(queue)
      invariant forall k :: 0 <= k < |q| ==> FreqSums(q[k])
      decreases |q|
    {
      var i :| 0 <= i < |q|;
      var j :| 0 <= j < |q| - 1;
      q := MergeStep(q, i, j);
    }
    root := q[0];
    LastTree(q, queue);
  }

  /** The one tree left at the end holds all of the queue's leaves. */
  lemma {:induction false} LastTree(q: seq<Tree>, queue: seq<Tree>)
    requires |q| == 1 && multiset(AllLeaves(q)) == multiset(queue)
    ensures multiset(Leaves(q[0])) == multiset(queue)
    ensures Height(q[0]) < |queue|
  {
    assert q == [q[0]];
    SingletonQueue(q[0]);
    HeightBelowLeaves(q[0]);
    assert |multiset(Leaves(q[0]))| == |Leaves(q[0])|;
  }

  /** Whatever the pop order, the root's frequency is the total frequency of
      the queue: a tree whose nodes sum their children's frequencies carries
      the total of its leaves, and that total does not depend on their order. */
  lemma RootFrequency(root: Tree, queue: seq<Tree>)
    requires FreqSums(root)
    requires multiset(Leaves(root)) == multiset(queue)
    ensures root.freq == TotalFreq(queue)
  {
    LeafTotal(root);
    TotalFreqPermutation(Leaves(root), queue);
  }

  /** A node's frequency is the total of its leaves' when every node sums its
      children. */
  lemma {:induction false} LeafTotal(t: Tree)
    requires FreqSums(t)
    ensures t.freq == TotalFreq(Leaves(t))
  {
    match t
    case Leaf(_, _) =>
      SingletonQueue(t);
      LeafQueue([t]);
    case Node(_, l, r) =>
      LeafTotal(l);
      LeafTotal(r);
      QueueAppend(Leaves(l), Leaves(r));
  }

  /** The total frequency of a queue depends only on its multiset of nodes. */
  lemma {:induction false} TotalFreqPermutation(a: seq<Tree>, b: seq<Tree>)
    requires multiset(a) == multiset(b)
    ensures TotalFreq(a) == TotalFreq(b)
    decreases |a|
  {
    if a == [] {
      assert |multiset(b)| == 0;
    } else {
      assert a[0] in multiset(b);
      var i :| 0 <= i < |b| && b[i] == a[0];
      RemoveSplits(b, i);
      MatchFirst(a, b, i);
      TotalFreqPermutation(a[1..], Remove(b, i));
    }
  }

  /** Taking the first node of `a` out of `b` leaves the rest of `a`. */
  lemma MatchFirst(a: seq<Tree>, b: seq<Tree>, i: nat)
    requires a != [] && i < |b| && b[i] == a[0]
    requires multiset(a) == multiset(b)
    ensures multiset(a[1..]) == multiset(Remove(b, i))
  {
    SplitAt(b, i);
    assert a == [a[0]] + a[1..];
    var rest, kept := multiset(a[1..]), multiset(Remove(b, i));
    assert multiset(b) == kept + multiset{b[i]};
    assert multiset(a) == rest + multiset{b[i]};
    assert rest == multiset(a) - multiset{b[i]};
  }

  // ---------------------------------------------------------------------------
  // Code assignment

  /** traverse(node, code): every leaf of `t` gets `code` followed by its path
      from `t`, '0' for a left edge and '1' for a right edge. The table lists
      the leaves left to right; the tree itself is not changed. */
  function Traverse(t: Tree, code: string): (r: seq<Entry>)
    ensures |r| == |Leaves(t)|
    ensures forall k :: 0 <= k < |r| ==> r[k].sym == Leaves(t)[k].id
    ensures forall k :: 0 <= k < |r| ==>
      IsPrefix(code, r[k].code) && |r[k].code| <= |code| + Height(t)
    ensures t.Node? ==> forall k :: 0 <= k < |r| ==> |r[k].code| > |code|
    ensures IsBits(code) ==> forall k :: 0 <= k < |r| ==> IsBits(r[k].code)
  {
    match t
    case Leaf(id, _) => [Entry(id, code)]
    case Node(_, l, r) =>
      var left, right := Traverse(l, code + "0"), Traverse(r, code + "1");
      JoinCodes(t, code, left, right);
      left + right
  }

  /** The tables of the two subtrees together describe the node. */
  lemma JoinCodes(t: Tree, code: string, left: seq<Entry>, right: seq<Entry>)
    requires t.Node?
    requires |left| == |Leaves(t.left)| && |right| == |Leaves(t.right)|
    requires forall k :: 0 <= k < |left| ==> left[k].sym == Leaves(t.left)[k].id
    requires forall k :: 0 <= k < |right| ==> right[k].sym == Leaves(t.right)[k].id
    requires forall k :: 0 <= k < |left| ==>
      IsPrefix(code + "0", left[k].code) && |left[k].code| <= |code| + 1 + Height(t.left)
    requires forall k :: 0 <= k < |right| ==>
      IsPrefix(code + "1", right[k].code) && |right[k].code| <= |code| + 1 + Height(t.right)
    requires IsBits(code) ==> forall k :: 0 <= k < |left| ==> IsBits(left[k].code)
    requires IsBits(code) ==> forall k :: 0 <= k < |right| ==> IsBits(right[k].code)
    ensures |left + right| == |Leaves(t)|
    ensures forall k :: 0 <= k < |left + right| ==> (left + right)[k].sym == Leaves(t)[k].id
    ensures forall k :: 0 <= k < |left + right| ==>
      IsPrefix(code, (left + right)[k].code) && |code| < |(left + right)[k].code| <= |code| + Height(t)
    ensures IsBits(code) ==> forall k :: 0 <= k < |left + right| ==> IsBits((left + right)[k].code)
  {
    var all := left + right;
    forall k | 0 <= k < |all|
      ensures all[k].sym == Leaves(t)[k].id
      ensures IsPrefix(code, all[k].code) && |code| < |all[k].code| <= |code| + Height(t)
    {
      var c := if k < |left| then code + "0" else code + "1";
      assert IsPrefix(c, all[k].code);
      assert all[k].code[..|code|] == c[..|code|];
    }
  }

  /** Each code Traverse assigns is the path from the root to that leaf. */
  lemma {:induction false} TraverseFollowsPaths(t: Tree, code: string)
    ensures forall k :: 0 <= k < |Leaves(t)| ==>
      At(t, Traverse(t, code)[k].code[|code|..]) == Some(Leaves(t)[k])
  {
    match t
    case Leaf(_, _) =>
    case Node(_, l, r) =>
      var c0, c1 := code + "0", code + "1";
      var L, R := Traverse(l, c0), Traverse(r, c1);
      TraverseFollowsPaths(l, c0);
      TraverseFollowsPaths(r, c1);
      forall k | 0 <= k < |Leaves(t)|
        ensures At(t, Traverse(t, code)[k].code[|code|..]) == Some(Leaves(t)[k])
      {
        var full := Traverse(t, code)[k].code;
        if k < |L| {
          assert full == L[k].code;
          assert full[..|c0|] == c0;
          assert full[|code|..][1..] == full[|c0|..];
          assert full[|code|..][0] == '0';
        } else {
          assert full == R[k - |L|].code;
          assert full[..|c1|] == c1;
          assert full[|code|..][1..] == full[|c1|..];
          assert full[|code|..][0] == '1';
        }
      }
  }

  /** No code Traverse assigns is a prefix of another. */
  lemma {:induction false} TraversePrefixFree(t: Tree, code: string)
    ensures PrefixFree(Traverse(t, code))
  {
    match t
    case Leaf(_, _) =>
    case Node(_, l, r) =>
      TraversePrefixFree(l, code + "0");
      TraversePrefixFree(r, code + "1");
      var all := Traverse(t, code);
      forall a, b | 0 <= a < |all| && 0 <= b < |all| && a != b
        ensures !IsPrefix(all[a].code, all[b].code)
      {
        NodeCodesDiverge(t, code, a, b);
      }
  }

  lemma {:induction false} NodeCodesDiverge(t: Tree, code: string, a: nat, b: nat)
    requires t.Node?
    requires PrefixFree(Traverse(t.left, code + "0"))
    requires PrefixFree(Traverse(t.right, code + "1"))
    requires a < |Leaves(t)| && b < |Leaves(t)| && a != b
    ensures !IsPrefix(Traverse(t, code)[a].code, Traverse(t, code)[b].code)
  {
    var L, R := Traverse(t.left, code + "0"), Traverse(t.right, code + "1");
    var all := Traverse(t, code);
    if a < |L| && b < |L| {
      assert all[a] == L[a] && all[b] == L[b];
    } else if a >= |L| && b >= |L| {
      assert all[a] == R[a - |L|] && all[b] == R[b - |L|];
    } else {
      BranchDigit(t, code, a);
      BranchDigit(t, code, b);
      DifferAt(all[a].code, all[b].code, |code|);
    }
  }

  /** Below an internal node, a code continues `code` with '0' for the leaves
      of the left subtree and with '1' for those of the right one. */
  lemma BranchDigit(t: Tree, code: string, k: nat)
    requires t.Node? && k < |Leaves(t)|
    ensures |Traverse(t, code)[k].code| > |code|
    ensures Traverse(t, code)[k].code[|code|] == (if k < |Leaves(t.left)| then '0' else '1')
  {
    var L, R := Traverse(t.left, code + "0"), Traverse(t.right, code + "1");
    var x := Traverse(t, code)[k].code;
    if k < |L| {
      assert x == L[k].code;
      assert x[..|code| + 1] == code + "0";
      assert x[|code|] == x[..|code| + 1][|code|];
    } else {
      assert x == R[k - |L|].code;
      assert x[..|code| + 1] == code + "1";
      assert x[|code|] == x[..|code| + 1][|code|];
    }
  }

  lemma DifferAt(x: string, y: string, n: nat)
    requires n < |x| && n < |y| && x[n] != y[n]
    ensures !IsPrefix(x, y)
  {
    if |x| <= |y| {
      assert y[..|x|][n] != x[n];
    }
  }

  /** A tree has more leaves than its height: no leaf lies deeper than one
      less than the number of leaves. */
  lemma {:induction false} HeightBelowLeaves(t: Tree)
    ensures Height(t) < |Leaves(t)|
  {
    match t
    case Leaf(_, _) =>
    case Node(_, l, r) =>
      HeightBelowLeaves(l);
      HeightBelowLeaves(r);
  }

  // ---------------------------------------------------------------------------
  // Queue helpers

  lemma {:induction false} QueueAppend(a: seq<Tree>, b: seq<Tree>)
    ensures AllLeaves(a + b) == AllLeaves(a) + AllLeaves(b)
    ensures TotalFreq(a + b) == TotalFreq(a) + TotalFreq(b)
  {
    if a == [] {
      assert a + b == b;
    } else {
      assert (a + b)[1..] == a[1..] + b;
      QueueAppend(a[1..], b);
    }
  }

  lemma {:induction false} RemoveSplits(q: seq<Tree>, i: nat)
    requires i < |q|
    ensures multiset(AllLeaves(q)) == multiset(AllLeaves(Remove(q, i))) + multiset(Leaves(q[i]))
    ensures TotalFreq(q) == TotalFreq(Remove(q, i)) + q[i].freq
  {
    SplitAt(q, i);
    LeavesWithout(q[..i], q[i], q[i + 1..]);
    FreqWithout(q[..i], q[i], q[i + 1..]);
  }

  lemma SplitAt<T>(q: seq<T>, i: nat)
    requires i < |q|
    ensures q == q[..i] + ([q[i]] + q[i + 1..])
  {
  }

  lemma LeavesWithout(pre: seq<Tree>, t: Tree, post: seq<Tree>)
    ensures multiset(AllLeaves(pre + ([t] + post))) == multiset(AllLeaves(pre + post)) + multiset(Leaves(t))
  {
    QueueAppend(pre, [t] + post);
    QueueAppend([t], post);
    QueueAppend(pre, post);
    SingletonQueue(t);
    MultisetOfThree(AllLeaves(pre), Leaves(t), AllLeaves(post));
  }

  lemma FreqWithout(pre: seq<Tree>, t: Tree, post: seq<Tree>)
    ensures TotalFreq(pre + ([t] + post)) == TotalFreq(pre + post) + t.freq
  {
    QueueAppend(pre, [t] + post);
    QueueAppend([t], post);
    QueueAppend(pre, post);
    SingletonQueue(t);
  }

  lemma SingletonQueue(t: Tree)
    ensures AllLeaves([t]) == Leaves(t)
    ensures TotalFreq([t]) == t.freq
  {
    assert [t][1..] == [];
  }

  /** Moving the middle part of a concatenation out of it, as a multiset;
      kept apart so the step is proved on plain sequences rather than on
      AllLeaves. */
  lemma MultisetOfThree(a: seq<Tree>, b: seq<Tree>, c: seq<Tree>)
    ensures multiset(a + (b + c)) == multiset(a + c) + multiset(b)
  {
  }

  lemma RemoveKeeps(q: seq<Tree>, i: nat)
    requires i < |q|
    requires forall k :: 0 <= k < |q| ==> FreqSums(q[k])
    ensures forall k :: 0 <= k < |Remove(q, i)| ==> FreqSums(Remove(q, i)[k])
  {
    forall k | 0 <= k < |Remove(q, i)|
      ensures FreqSums(Remove(q, i)[k])
    {
      assert Remove(q, i)[k] == (if k < i then q[k] else q[k + 1]);
    }
  }

  lemma {:induction false} LeafQueue(q: seq<Tree>)
    requires forall k :: 0 <= k < |q| ==> q[k].Leaf?
    ensures AllLeaves(q) == q
  {
    if q != [] {
      LeafQueue(q[1..]);
      assert q == [q[0]] + q[1..];
    }
  }
}

=== FILE: outcomes.dfy ===
/** Failure-carrying values shared by the encoder and the decoder. */
module Outcomes {

  datatype Option<+T> = None | Some(value: T)

  /** The ways decoding a compressed file goes wrong. In the C++ decoder each
      of these is undefined behaviour or an uncaught exception; here they are
      reported. */
  datatype Error =
    | Truncated         // the file ends before the header or payload it declares
    | MissingSentinel   // a 128-bit code field holds no '1' bit
    | NullBranch        // the walk steps to a child that was never created

  datatype Result<+T> = Ok(value: T) | Err(error: Error)
}

=== FILE: payload.dfy ===
/** The payload: the input's codes packed into bytes, the last one padded with
    zeros, followed by the number of padding bits (encodeSave), and the bit
    string the decoder recovers from it (decodeSave). */
module Payload {
  import opened Bits
  import opened CodeTable

  /** How many bits of the last payload byte the decoder keeps for a given
      final byte. The C++ decoder reads that byte as a signed char `c` and
      keeps `substr(0, 8 - c)` of the 8 digits: a value above 8 makes the
      length negative, which as a size_t keeps all 8; a byte of 128 or more is
      a negative char, which asks for more than 8 and also keeps all 8. */
  function Keep(count: Byte): (n: nat)
    ensures n <= 8
    ensures count <= 8 ==> n + count == 8
    ensures count > 8 ==> n == 8
    ensures n == Min(8, SizeT(8 - SignedChar(count)))
  {
    if count <= 8 then 8 - count else 8
  }

  /** The byte read into a `char`, which is signed: 128 and above are
      negative. */
  function SignedChar(b: Byte): int {
    if b < 128 then b else b - 256
  }

  /** An `int` passed as a `size_t` length: taken modulo 2^64. */
  function SizeT(x: int): nat {
    x % 0x1_0000_0000_0000_0000
  }

  /** `substr` keeps at most the characters there are. */
  function Min(a: nat, b: nat): nat {
    if a <= b then a else b
  }

  /** The bits the decoder walks: every payload byte as 8 digits, the last one
      cut to `Keep(count)` digits. */
  function Unpack(payload: seq<Byte>, count: Byte): (bits: string)
    requires |payload| >= 1
    ensures |bits| == 8 * (|payload| - 1) + Keep(count)
    ensures IsBits(bits)
  {
    var n := |payload| - 1;
    Expand(payload[..n]) + DecimalToBinary(payload[n])[..Keep(count)]
  }

  /** The payload loop of encodeSave. Each symbol's code is appended to a
      buffer; bytes are cut off the front only while MORE than 8 bits are
      buffered, so a buffer of exactly 8 bits waits for the next symbol.
      After the last symbol the 1..8 remaining bits are padded with zeros to
      a last byte, and the number of padding bits is returned. */
  method PackPayload(table: seq<Entry>, xs: seq<Byte>) returns (payload: seq<Byte>, count: Byte)
    requires AllBits(table)
    ensures |payload| >= 1 && count <= 8
    ensures Unpack(payload, count) == CodeBits(table, xs)
    ensures DecimalToBinary(payload[|payload| - 1])[8 - count..] == Zeros(count)
    ensures |CodeBits(table, xs)| > 0 ==>
      |payload| == (|CodeBits(table, xs)| + 7) / 8 && count == 8 * |payload| - |CodeBits(table, xs)|
    ensures |CodeBits(table, xs)| == 0 ==> payload == [0] && count == 8
  {
    var s := "";
    var full: seq<Byte> := [];
    var i := 0;
    while i < |xs|
      invariant 0 <= i <= |xs|
      invariant IsBits(s) && |s| <= 8
      invariant Expand(full) + s == CodeBits(table, xs[..i])
      invariant |s| == 0 ==> full == []
    {
      AppendCode(table, xs, i, Expand(full), s);
      full, s := Flush(full, s + CodeOf(table, xs[i]));
      i := i + 1;
    }
    assert xs[..i] == xs;
    payload, count := PadLast(full, s);
  }

  /** The inner loop of encodeSave: cut 8-bit bytes off the front of the
      buffer while it holds more than 8 bits. */
  method Flush(done: seq<Byte>, s: string) returns (done': seq<Byte>, s': string)
    requires IsBits(s)
    ensures IsBits(s') && |s'| <= 8
    ensures Expand(done') + s' == Expand(done) + s
    ensures |s| <= 8 ==> done' == done && s' == s
    ensures |s| > 0 ==> |s'| > 0
  {
    done', s' := done, s;
    while |s'| > 8
      invariant IsBits(s')
      invariant Expand(done') + s' == Expand(done) + s
      invariant |s| <= 8 ==> done' == done && s' == s
      invariant |s| > 0 ==> |s'| > 0
      decreases |s'|
    {
      var b := BinaryToDecimal(s'[..8]);
      FlushByte(done', s');
      done' := done' + [b];
      s' := s'[8..];
    }
  }

  /** The end of encodeSave: the 0..8 buffered bits padded with zeros to one
      last byte, and the number of padding bits. */
  method PadLast(done: seq<Byte>, s: string) returns (payload: seq<Byte>, count: Byte)
    requires IsBits(s) && |s| <= 8
    requires |s| == 0 ==> done == []
    ensures |payload| >= 1 && count <= 8
    ensures Unpack(payload, count) == Expand(done) + s
    ensures DecimalToBinary(payload[|payload| - 1])[8 - count..] == Zeros(count)
    ensures |Expand(done) + s| > 0 ==>
      |payload| == (|Expand(done) + s| + 7) / 8 && count == 8 * |payload| - |Expand(done) + s|
    ensures |Expand(done) + s| == 0 ==> payload == [0] && count == 8
  {
    count := 8 - |s|;
    payload := done + [BinaryToDecimal(Pad(s))];
    LastByte(done, s);
    PadSize(done, s);
    assert Pad(s)[|s|..] == Zeros(8 - |s|);
    if s == [] {
      EmptyPad();
    }
  }

  /** The buffered bits followed by zeros up to a whole byte. */
  function Pad(s: string): (r: string)
    requires IsBits(s) && |s| <= 8
    ensures |r| == 8 && IsBits(r) && r[..|s|] == s
    ensures forall k :: |s| <= k < 8 ==> r[k] == '0'
  {
    PadBits(s);
    s + Zeros(8 - |s|)
  }

  lemma PadBits(s: string)
    requires IsBits(s) && |s| <= 8
    ensures IsBits(s + Zeros(8 - |s|))
  {
    var z := Zeros(8 - |s|);
    assert IsBits(z);
    BitsConcat(s, z);
  }

  lemma EmptyPad()
    ensures BinaryToDecimal(Pad("")) == 0
  {
    assert Pad("") == Zeros(8);
    ValueOfZerosThen(8, "");
    assert Zeros(8) + "" == Zeros(8);
  }

  lemma PadSize(done: seq<Byte>, s: string)
    requires |s| <= 8
    ensures |Expand(done) + s| == 8 * |done| + |s|
    ensures |s| > 0 ==> (|Expand(done) + s| + 7) / 8 == |done| + 1
  {
    if |s| > 0 {
      RoundUp(|done|, |s|);
    }
  }

  /** 8d + r bits, with 1 <= r <= 8, fill d + 1 bytes. */
  lemma RoundUp(d: nat, r: nat)
    requires 1 <= r <= 8
    ensures (8 * d + r + 7) / 8 == d + 1
  {
    assert 8 * d + r + 7 == 8 * (d + 1) + (r - 1);
  }

  lemma {:induction false} AppendCode(table: seq<Entry>, xs: seq<Byte>, i: nat, done: string, s: string)
    requires i < |xs|
    requires AllBits(table)
    requires IsBits(s) && done + s == CodeBits(table, xs[..i])
    ensures IsBits(s + CodeOf(table, xs[i]))
    ensures done + (s + CodeOf(table, xs[i])) == CodeBits(table, xs[..i + 1])
  {
    var c := CodeOf(table, xs[i]);
    CodeBitsExtend(table, xs, i);
    Associate(done, s, c);
    CodeOfBits(table, xs[i]);
    BitsConcat(s, c);
  }

  /** Regrouping the buffer after an append; kept apart so the sequence
      equality is proved on three plain strings rather than on CodeBits. */
  lemma Associate(a: string, b: string, c: string)
    ensures a + (b + c) == (a + b) + c
  {
  }

  lemma CodeBitsExtend(table: seq<Entry>, xs: seq<Byte>, i: nat)
    requires i < |xs|
    ensures CodeBits(table, xs[..i + 1]) == CodeBits(table, xs[..i]) + CodeOf(table, xs[i])
  {
    assert xs[..i + 1] == xs[..i] + [xs[i]];
    CodeBitsAppend(table, xs[..i], xs[i]);
  }

  lemma FlushByte(payload: seq<Byte>, s: string)
    requires IsBits(s) && |s| > 8
    ensures Expand(payload + [BinaryToDecimal(s[..8])]) + s[8..] == Expand(payload) + s
  {
    var b := BinaryToDecimal(s[..8]);
    ExpandAppend(payload, [b]);
    assert Expand([b]) == s[..8] + Expand([]);
    assert s == s[..8] + s[8..];
  }

  lemma LastByte(payload: seq<Byte>, s: string)
    requires IsBits(s) && |s| <= 8
    ensures Unpack(payload + [BinaryToDecimal(Pad(s))], 8 - |s|) == Expand(payload) + s
  {
    UnpackLast(payload, BinaryToDecimal(Pad(s)), 8 - |s|);
  }

  lemma UnpackLast(payload: seq<Byte>, last: Byte, count: Byte)
    ensures Unpack(payload + [last], count) == Expand(payload) + DecimalToBinary(last)[..Keep(count)]
  {
    assert (payload + [last])[..|payload|] == payload;
  }
}

=== FILE: rebuild.dfy ===
/** The decoder's tree, grown from the header by buildTree: nodes are created
    on demand along each code's path, and existing branches are kept. */
module Rebuild {
  import opened Bits
  import opened CodeTable

  /** A possibly null `huffman_node*`. A node the decoder creates has id 0 and
      no children; a leaf is a node with neither child. */
  datatype Slot = Null | Cell(id: Byte, left: Slot, right: Slot)

  function Fresh(n: Slot): (c: Slot)
    ensures c.Cell?
  {
    if n.Null? then Cell(0, Null, Null) else n
  }

  /** Attach `id` to a node, creating it if absent. */
  function Stamp(n: Slot, id: Byte): Slot {
    match n
    case Null => Cell(id, Null, Null)
    case Cell(_, l, r) => Cell(id, l, r)
  }

  /** The node reached from `n` along `path` ('0' left, anything else right, as
      the decoder steps), or Null once the path leaves the tree. */
  function Follow(n: Slot, path: string): Slot
    decreases |path|
  {
    if path == [] then n
    else match n
      case Null => Null
      case Cell(_, l, r) => Follow(if path[0] == '0' then l else r, path[1..])
  }

  /** buildTree(path, id) from node `n`: step along `path`, creating a child
      wherever one is missing ('0' left, '1' right, other characters skipped),
      and attach `id` to the node reached. */
  function Insert(n: Slot, path: string, id: Byte): (r: Slot)
    ensures r.Cell?
    ensures IsBits(path) ==> Follow(r, path) == Stamp(Follow(n, path), id)
    decreases |path|
  {
    var c := Fresh(n);
    if path == [] then Stamp(c, id)
    else if path[0] == '0' then Cell(c.id, Insert(c.left, path[1..], id), c.right)
    else if path[0] == '1' then Cell(c.id, c.left, Insert(c.right, path[1..], id))
    else Insert(c, path[1..], id)
  }

  /** The header entries inserted one after another. No insertion removes a
      node, so every code inserted leads to a node at the end. */
  function InsertAll(n: Slot, table: seq<Entry>): (r: Slot)
    ensures n.Cell? ==> r.Cell?
    ensures forall k :: 0 <= k < |table| && IsBits(table[k].code) ==> Follow(r, table[k].code).Cell?
  {
    if table == [] then n
    else
      var m := |table| - 1;
      var t := InsertAll(n, table[..m]);
      KeepsInserted(t, table[..m], table);
      Insert(t, table[m].code, table[m].sym)
  }

  /** recreateHuffmanTree: a fresh root, then every entry inserted in order.
      The root is always a node, and every code of the header reaches a
      node. */
  function Recreate(table: seq<Entry>): (r: Slot)
    ensures r.Cell?
    ensures forall k :: 0 <= k < |table| && IsBits(table[k].code) ==> Follow(r, table[k].code).Cell?
  {
    InsertAll(Cell(0, Null, Null), table)
  }

  /** Inserting the last entry keeps the nodes the earlier codes reach. */
  lemma KeepsInserted(t: Slot, done: seq<Entry>, table: seq<Entry>)
    requires table != [] && done == table[..|table| - 1]
    requires forall k :: 0 <= k < |done| && IsBits(done[k].code) ==> Follow(t, done[k].code).Cell?
    ensures forall k :: 0 <= k < |table| && IsBits(table[k].code) ==>
      Follow(Insert(t, table[|table| - 1].code, table[|table| - 1].sym), table[k].code).Cell?
  {
    var m := |table| - 1;
    var e := table[m];
    forall k | 0 <= k < |table| && IsBits(table[k].code)
      ensures Follow(Insert(t, e.code, e.sym), table[k].code).Cell?
    {
      if k < m {
        assert done[k] == table[k];
        InsertKeepsNodes(t, e.code, table[k].code, e.sym);
      }
    }
  }

  // ---------------------------------------------------------------------------
  // buildTree reaches its path and leaves other branches alone

  /** buildTree never removes a node: every path that reached a node before
      inserting `p` still reaches one. */
  lemma {:induction false} InsertKeepsNodes(n: Slot, p: string, q: string, id: Byte)
    requires Follow(n, q).Cell?
    ensures Follow(Insert(n, p, id), q).Cell?
    decreases |p|
  {
    if p != [] && q != [] {
      if p[0] == '0' {
        if q[0] == '0' {
          InsertKeepsNodes(n.left, p[1..], q[1..], id);
        }
      } else if p[0] == '1' {
        if q[0] != '0' {
          InsertKeepsNodes(n.right, p[1..], q[1..], id);
        }
      } else {
        InsertKeepsNodes(n, p[1..], q, id);
      }
    }
  }

  /** A path that neither extends nor is extended by `p` leads to the same
      subtree before and after inserting `p`. */
  lemma {:induction false} InsertKeepsOthers(n: Slot, p: string, q: string, id: Byte)
    requires IsBits(p) && IsBits(q)
    requires !IsPrefix(p, q) && !IsPrefix(q, p)
    ensures Follow(Insert(n, p, id), q) == Follow(n, q)
    decreases |p|
  {
    assert p != [] && q != [];
    var c := Fresh(n);
    if p[0] == q[0] {
      PrefixTail(p, q);
      PrefixTail(q, p);
      if p[0] == '0' {
        InsertKeepsOthers(c.left, p[1..], q[1..], id);
      } else {
        InsertKeepsOthers(c.right, p[1..], q[1..], id);
      }
    }
  }

  /** Inserting `p` creates nodes only on the way to `p`. */
  lemma {:induction false} InsertOnlyOnPath(n: Slot, p: string, r: string, id: Byte)
    requires IsBits(p) && IsBits(r)
    requires Follow(Insert(n, p, id), r).Cell?
    ensures Follow(n, r).Cell? || IsPrefix(r, p)
    decreases |r|
  {
    if r != [] && p != [] && p[0] == r[0] {
      var c := Fresh(n);
      if p[0] == '0' {
        InsertOnlyOnPath(c.left, p[1..], r[1..], id);
      } else {
        InsertOnlyOnPath(c.right, p[1..], r[1..], id);
      }
      if IsPrefix(r[1..], p[1..]) {
        assert r == [r[0]] + r[1..] && p[..|r|] == [p[0]] + p[1..][..|r| - 1];
      }
    }
  }

  lemma PrefixTail(p: string, q: string)
    requires p != [] && q != [] && p[0] == q[0]
    ensures IsPrefix(p[1..], q[1..]) ==> IsPrefix(p, q)
  {
    if IsPrefix(p[1..], q[1..]) {
      assert q[..|p|] == [q[0]] + q[1..][..|p| - 1];
      assert p == [p[0]] + p[1..];
    }
  }

  lemma {:induction false} FollowAppend(n: Slot, a: string, b: string)
    ensures Follow(n, a + b) == Follow(Follow(n, a), b)
    decreases |a|
  {
    if a == [] {
      assert a + b == b;
    } else if n.Cell? {
      assert (a + b)[1..] == a[1..] + b;
      FollowAppend(if a[0] == '0' then n.left else n.right, a[1..], b);
    } else {
      FollowNull(b);
    }
  }

  lemma FollowNull(b: string)
    ensures Follow(Null, b) == Null
  {
  }

  // ---------------------------------------------------------------------------
  // Rebuilding from a prefix-free table

  /** The paths present in `t` are the root and prefixes of the codes. */
  ghost predicate OnlyCodePaths(t: Slot, table: seq<Entry>) {
    forall r :: IsBits(r) && Follow(t, r).Cell? ==>
      r == [] || exists k :: 0 <= k < |table| && IsPrefix(r, table[k].code)
  }

  /** Every code of the table leads to a leaf holding its symbol. */
  ghost predicate CodesReachLeaves(t: Slot, table: seq<Entry>) {
    forall k :: 0 <= k < |table| ==> Follow(t, table[k].code) == Cell(table[k].sym, Null, Null)
  }

  /** Rebuilding a tree from a valid table: the root is a node, each code
      leads from it to a leaf holding that code's symbol, and nothing else
      was created. */
  lemma {:induction false} RebuildLeaves(table: seq<Entry>)
    requires ValidTable(table)
    ensures Recreate(table).Cell?
    ensures CodesReachLeaves(Recreate(table), table)
    ensures OnlyCodePaths(Recreate(table), table)
  {
    if table == [] {
      RootOnly();
    } else {
      var m := |table| - 1;
      ValidPrefix(table, m);
      RebuildLeaves(table[..m]);
      InsertStep(Recreate(table[..m]), table);
    }
  }

  lemma RootOnly()
    ensures OnlyCodePaths(Cell(0, Null, Null), [])
  {
    forall r | IsBits(r) && Follow(Cell(0, Null, Null), r).Cell?
      ensures r == []
    {
      if r != [] {
        FollowNull(r[1..]);
      }
    }
  }

  lemma ValidPrefix(table: seq<Entry>, m: nat)
    requires ValidTable(table) && m <= |table|
    ensures ValidTable(table[..m])
  {
    assert forall k :: 0 <= k < m ==> table[..m][k] == table[k];
  }

  /** Inserting the last entry keeps both invariants when its code is
      prefix-free with respect to the earlier ones. */
  lemma InsertStep(t: Slot, table: seq<Entry>)
    requires table != [] && t.Cell?
    requires ValidTable(table)
    requires CodesReachLeaves(t, table[..|table| - 1]) && OnlyCodePaths(t, table[..|table| - 1])
    ensures CodesReachLeaves(Insert(t, table[|table| - 1].code, table[|table| - 1].sym), table)
    ensures OnlyCodePaths(Insert(t, table[|table| - 1].code, table[|table| - 1].sym), table)
  {
    var m := |table| - 1;
    var done, e := table[..m], table[m];
    var t' := Insert(t, e.code, e.sym);
    // the old codes are untouched
    forall k | 0 <= k < m
      ensures Follow(t', table[k].code) == Cell(table[k].sym, Null, Null)
    {
      assert done[k] == table[k];
      InsertKeepsOthers(t, e.code, table[k].code, e.sym);
    }
    // the new code ends at a node without children
    NewCodeEndsBare(t, table);
    // any node of the new tree is old or on the new code's path
    forall r | IsBits(r) && Follow(t', r).Cell?
      ensures r == [] || exists k :: 0 <= k < |table| && IsPrefix(r, table[k].code)
    {
      InsertOnlyOnPath(t, e.code, r, e.sym);
      if !IsPrefix(r, e.code) && r != [] {
        var k :| 0 <= k < m && IsPrefix(r, done[k].code);
        assert done[k] == table[k];
      }
    }
  }

  /** The last code is not on the path of any earlier one, so before it is
      inserted no node lies at its end. */
  lemma NewCodeEndsBare(t: Slot, table: seq<Entry>)
    requires table != [] && ValidTable(table)
    requires OnlyCodePaths(t, table[..|table| - 1])
    ensures Follow(t, table[|table| - 1].code).Null?
  {
    var m := |table| - 1;
    var done, e := table[..m], table[m];
    forall k | 0 <= k < m
      ensures !IsPrefix(e.code, done[k].code)
    {
      assert done[k] == table[k];
    }
  }
}
